=== FILE: README.md ===
# Office-hours queue: a verified model

This project models the core of `ta_queue`, a Rails/Mongoid application that runs an
office-hours queue. Students enter and exit a waiting line. Teaching assistants (TAs)
accept students from it. Queue-level flags (`active`, `frozen`) gate every change.

The model covers three pieces:

- the `SchoolQueue` record: field defaults, validations, the two before-save callbacks
  (`check_active`, `upcase_class_number`), and deleting a queue together with its participants;
- the `QueueUser` record: username and token validations, the `ta?`/`student?` role tests,
  and the `keep_alive` heartbeat rule;
- the queue operations `enter`, `exit` and `accept`, including backfill when an assigned
  student exits, and the ordered waiting list.

The implementation of the queue operations is not part of the source files modelled here.
Their behaviour is taken from the examples in `spec/controllers/queues_controller_spec.rb`.
Where those examples leave a choice open, the choice is listed under "Modelling decisions".

Everything is immutable data and pure functions over an abstract store (`Database.Store`).
The store holds a sequence of participant records and one partial map from a TA's id to
the id of the student that TA is helping. `ta.student` reads the map; `student.ta`
(`Database.TaOf`) is derived from it, so the two sides agree by construction
(`Database.TaOfIsInverse`). Time is an integer number of seconds.

Files:

| file | module | models |
|---|---|---|
| `wrappers.dfy` | `Wrappers` | `Option` for values that may be `nil`, `Result` for refusable operations |
| `text.dfy` | `Text` | `\w`, `blank?`, ASCII `upcase!`, the search semantics of `/^\w*$/` |
| `queue_user.dfy` | `Participants` | `app/models/queue_user.rb` |
| `database.dfy` | `Database` | the store, its consistency invariant, `student.ta` |
| `school_queue.dfy` | `Queues` | `app/models/school_queue.rb` |
| `waiting_line.dfy` | `WaitingLine` | the waiting list ordered by `in_queue` |
| `queue_actions.dfy` | `QueueActions` | `enter`, `exit`, `accept`, backfill |

## Modelling decisions

These choices are not fixed by the source or its examples:

- **Backfill choice.** When an assigned student exits, the TA gets the waiting student of
  the same queue with the earliest `in_queue` time. Ties go to the earlier record in the
  store. The student who is leaving is never chosen. A student already paired with
  another TA is never chosen, so no student has two TAs.
- **`accept` and `in_queue`.** What `accept` does to the student's `in_queue` is not fixed by
  the source. `QueueActions.Accept` takes the value it ends with as a parameter, `joined`. The
  accepted student is on the waiting list afterwards exactly when `joined` is set
  (`QueueActions.AcceptListsStudentIffJoined`).
- **Waiting list.** It holds every student of the queue whose `in_queue` is set, including
  one currently paired with a TA. Students with equal `in_queue` times keep their store
  order (`WaitingLine.Line`).
- **`accept` refusals.** `accept` is refused on an inactive queue. It is refused when the
  student already has a different TA. It is not affected by `frozen`. A student who is not
  waiting (`in_queue` nil) can be accepted: no "not waiting" refusal is modelled, as in the
  `show` example (spec/controllers/queues_controller_spec.rb:17-18 and 55).
- **Frozen exit.** `exit` is refused on a frozen queue, as `enter` is. The examples show
  this only for `enter`.
- **Unknown ids.** An id that does not name a student (or, for `accept`, a TA) of the
  queue gives `NotFound`.
- **Flag values.** Each Boolean field holds a `BoolField`: a real Boolean, `nil`, or some
  other raw value. This is what lets the inclusion validation mean something. Gating
  uses Ruby truthiness, where only `false` and `nil` are false.

## Model

| member | source | states |
|---|---|---|
| Queues.NewQueue | app/models/school_queue.rb:7-13 | a new queue is active, not frozen and not question based, with an empty status, and keeps the given id, instructor, title, class number and password |
| Queues.ValidIff | app/models/school_queue.rb:26-29 | (corrected rules, see "## Findings") a queue is valid iff its three flags are literal true/false, title, class number and password are present (not blank), the class number holds only word characters, and no other queue of the same instructor has the same (upcased) class number |
| Queues.NonBooleanFlagRejected | spec/controllers/queues_controller_spec.rb:206-221 | assigning a non-Boolean value to `frozen` yields an error on `frozen`, and the save is refused |
| Queues.FormatAgreesOnSingleLine | app/models/school_queue.rb:28 | for a class number without line feeds, the format rule and the line-anchored pattern `/^\w*$/` accept exactly the same strings |
| Text.SingleLineMatchesIffWordChars | app/models/school_queue.rb:28 | on a newline-free string, `/^\w*$/` matches iff every character is a letter, digit or underscore |
| Queues.CheckActive | app/models/school_queue.rb:43-50 | on an inactive queue: every student of that queue gets `in_queue = nil`, every TA of that queue loses its student, `frozen` becomes false and `status` becomes ""; title, password, class number, `active` and all other users are untouched and pairings of other queues' TAs survive; on an active queue it changes nothing |
| Queues.CheckActivePreservesConsistent | app/models/school_queue.rb:43-50 | the reset keeps the store consistent: pairings still join a TA and a student of one queue, and no student has two TAs |
| Queues.CheckActiveReleasesStudents | app/models/school_queue.rb:46 | after the reset, no student of the inactive queue has a TA (`student.ta` is nil) |
| Queues.CheckActiveIdempotent | app/models/school_queue.rb:43-50 | applying `check_active` twice gives the same queue and store as applying it once |
| Text.Upcase | app/models/school_queue.rb:52-54 | upcasing keeps the length and maps each character independently |
| Text.UpcaseIdempotent | app/models/school_queue.rb:52-54 | upcasing twice equals upcasing once |
| Text.UpcasePreservesWordChars | app/models/school_queue.rb:28 | a string is all word characters iff its upcased form is, so the format validated before the callback still holds after it |
| Text.UpcaseLeavesNoLowercase | app/models/school_queue.rb:53 | no lower-case ASCII letter survives upcasing |
| Queues.UpcaseClassNumber | app/models/school_queue.rb:52-54 | only the class number changes; each character becomes its ASCII capital (`upcase!`), so it keeps its length, has no lower-case letter, keeps every other character, keeps its word-character format, and is a fixed point of upcasing |
| Queues.Save | app/models/school_queue.rb:26-54 | a save is refused with exactly the validation errors iff there are any; a saved queue has an upcased class number that still passes flag, presence and format validation; the users and pairings are those `check_active` leaves; an active queue is stored as given apart from the upcased class number; an inactive queue is stored with `frozen` false, an empty `status` and the upcased class number, every other field as given |
| Queues.SaveKeepsClassNumbersUnique | app/models/school_queue.rb:29 | saving a new queue next to stored queues whose class numbers are unique per instructor keeps them unique |
| Queues.DestroyQueue | app/models/school_queue.rb:18 | deleting a queue removes exactly its participants and keeps every other record, as often as it was stored and in store order; a pairing survives exactly when both of its ends survive, unchanged |
| Queues.DestroyQueuePreservesConsistent | app/models/school_queue.rb:18 | deleting a queue keeps the store consistent |
| Participants.ValidIff | app/models/queue_user.rb:17-21 | a participant is valid iff its username is present, 1..40 characters long and not one of "username", "Username", "name", "Name", and its token is present |
| Participants.ReservedNamesAreCaseSensitive | app/models/queue_user.rb:21 | "name" is rejected as reserved while "NAME" and "USERNAME" are accepted |
| Participants.NewUser | app/models/queue_user.rb:7-9 | a new participant carries the given id, queue, role, username and location, the supplied token and the creation time as its heartbeat; it is valid iff its username passes; an immediate `keep_alive` changes nothing |
| Participants.IsTa | app/models/queue_user.rb:31-37 | `ta?` holds exactly when `student?` does not; both read only the role tag |
| Participants.KeepAlive | app/models/queue_user.rb:39-51 | a missing heartbeat is set to now; one more than 15 minutes old is set to now; otherwise the user is unchanged; no other field changes; afterwards the heartbeat is present and at most 15 minutes old |
| Participants.KeepAliveBoundary | app/models/queue_user.rb:45 | a heartbeat exactly 15 minutes old is not refreshed |
| Participants.KeepAliveIdempotent | app/models/queue_user.rb:39-51 | for a fixed `now`, `keep_alive` twice equals `keep_alive` once |
| Database.TaOfIsInverse | spec/controllers/queues_controller_spec.rb:164-166 | in a consistent store, `student.ta == ta` iff `ta.student == student` |
| WaitingLine.Line | spec/controllers/queues_controller_spec.rb:82-120 | the waiting list is in ascending `in_queue` order and holds exactly the waiting students of the queue, each as often as stored; students with equal `in_queue` times appear in store order |
| WaitingLine.LineIgnoresCreationOrder | spec/controllers/queues_controller_spec.rb:82-120 | when waiting students joined at distinct times, the waiting list does not depend on the order the records were created in |
| QueueActions.EnterExitGate | spec/controllers/queues_controller_spec.rb:223-263 | `enter`/`exit` are refused with QueueInactive on an inactive queue, else with QueueFrozen on a frozen one, and admitted exactly on an active, unfrozen queue |
| QueueActions.Enter | spec/controllers/queues_controller_spec.rb:124-136 | on an open queue, entering succeeds iff the id names a student of the queue; it sets that student's `in_queue` to now and changes no other record and no pairing; inactive and frozen queues refuse |
| QueueActions.EnterPreservesConsistent | spec/controllers/queues_controller_spec.rb:124-136 | entering keeps the store consistent |
| QueueActions.EnterJoinsLine | spec/controllers/queues_controller_spec.rb:124-136 | after entering, the student is on the waiting list exactly once; a lone entrant is the whole list |
| QueueActions.Accept | spec/controllers/queues_controller_spec.rb:162-166 | on an active queue, accept succeeds iff the ids name a TA and a student of the queue and the student has no other TA; it sets `ta.student`, changes no other TA, gives the student the `in_queue` value `joined` and changes no other record |
| QueueActions.AcceptIgnoresFrozen | spec/controllers/queues_controller_spec.rb:162-166 | the `frozen` flag does not change the outcome of accept |
| QueueActions.AcceptListsStudentIffJoined | spec/controllers/queues_controller_spec.rb:55-72 | after accept the student is on the waiting list iff the `in_queue` value it is left with is set |
| QueueActions.AcceptLinksBothSides | spec/controllers/queues_controller_spec.rb:162-166 | after accept the store is consistent, `student.ta == ta`, and the TA's previous student has no TA |
| QueueActions.NextWaiting | spec/controllers/queues_controller_spec.rb:154-179 | the chosen backfill student is waiting in the queue, is not the leaver, is unpaired, and joined no later than any other such student, and every such student stored before it joined strictly later (ties go to the earlier record); nothing is chosen iff no such student exists |
| QueueActions.Backfill | spec/controllers/queues_controller_spec.rb:154-201 | the freed TA no longer holds the leaver; it holds the earliest eligible student if there is one and nothing otherwise; other TAs keep their students |
| QueueActions.Exit | spec/controllers/queues_controller_spec.rb:138-201 | on an open queue, exiting succeeds iff the id names a student of the queue, even when that student is not waiting; it clears that student's `in_queue` and no other record; without a TA the pairings are untouched; with a TA the pairing is backfilled; inactive and frozen queues refuse |
| QueueActions.BackfillPreservesConsistent | spec/controllers/queues_controller_spec.rb:154-179 | backfill keeps the store consistent, the leaver appears in no pairing, and the new student's `student.ta` is the freed TA |
| QueueActions.ExitPreservesConsistent | spec/controllers/queues_controller_spec.rb:154-201 | exiting keeps the store consistent and leaves the student with no TA; a backfilled student is linked from both sides |
| QueueActions.ExitLeavesLine | spec/controllers/queues_controller_spec.rb:138-152 | after exiting, the student is not on the waiting list, and the list is empty when no one else was waiting |
| QueueActions.ExitHandsTaToOtherStudent | spec/controllers/queues_controller_spec.rb:154-179 | when the helped student exits and one other unpaired student waits, the exit succeeds, the TA's student becomes that student, that student's TA is the TA, and the leaver has no TA |
| QueueActions.ExitWithNoReplacement | spec/controllers/queues_controller_spec.rb:181-201 | when the helped student exits and no one else is eligible, the exit succeeds and both the TA's student and the leaver's TA are nil |

## Findings

| source | as written | input that shows it | evidently intended | confidence | as-written member | corrected member |
|---|---|---|---|---|---|---|
| app/models/school_queue.rb:28 | `/^\w*$/` uses line anchors, so a class number passes if any one of its lines is all word characters | `"CS1\n<x>"` passes the format check (`Text.MultilineAnchorsAdmitNonWordChars`) | every character is a letter, digit or underscore, as the error message says | high; not executed | Text.MatchesWordLines | Queues.FormatErrors |
| app/models/school_queue.rb:29 | uniqueness is checked against the raw class number, before `upcase_class_number` (school_queue.rb:35) upcases it for storage | stored `"CS1"` and a new `"cs1"` for the same instructor: the check passes and the save stores a second `"CS1"` (`Queues.UniquenessCheckedBeforeUpcase`) | stored class numbers are unique per instructor | medium (relies on the uniqueness validator being case-sensitive by default); not executed | Queues.ClassNumberTakenAsWritten | Queues.ClassNumberTaken |

The model validates with the corrected definitions (`Queues.Errors`).
`Queues.Save` proves that the stored class number passes the intended format.
`Queues.SaveKeepsClassNumbersUnique` proves that stored class numbers stay unique per instructor.

`Text.MatchesWordLines` models Ruby's anchor rules. `^` matches at the start of the string, or after a line feed that is not the last character. `$` matches at the end of the string, or before a line feed.

## Left out

- Persistence, `logger` calls and the database-backed uniqueness query: the store is a value, and uniqueness is checked against a given sequence of stored queues.
- `SecureRandom.uuid` (queue_user.rb:7): the token is a parameter, assumed non-blank.
- `DateTime`: times are whole seconds, so sub-second precision is not modelled.
- `keep_alive`'s `save`: a failed save is not modelled.
- The controllers (`boards_controller.rb`, `tas_controller.rb`): routing, rendering, redirects, sign-in and sign-out, and the master password.
- `queue.js`: rendering and polling.
- The authentication examples (spec/controllers/queues_controller_spec.rb:266-323).
- The JSON shape and counts (spec/controllers/queues_controller_spec.rb:64 and :72): rendering is not modelled. The count of 8 students needs the accepted `@student` (whose `in_queue` is nil) to be listed next to the 7 waiting ones. The `accept` implementation is not part of this model, so `QueueActions.Accept` leaves that value as its `joined` parameter: with `joined` set the list has 8 entries, without it 7.
- The pending example at spec/controllers/queues_controller_spec.rb:80: it has no body.
- Concurrency and locking.
- `to_param` and the `queue` alias: they carry no behaviour.
- The `location` field of `Participants.User`: carried as data and set by `NewUser`; no operation reads or changes it.
- The `in_queue_durations` association (school_queue.rb:19): its records are not part of this model.
- The snapshot's TA list and its `active`/`frozen`/`status` fields: only the waiting list is modelled.
- `release(ta)`, where a TA drops a student without the student leaving: it does not appear in the source or its examples.
- Text.Upcase: upcases ASCII letters only, as Ruby 1.9 does; Unicode case mapping is not modelled.
- Text.Present: treats only ASCII white space as blank; Unicode spaces are not modelled.
- Queues.Save: validates with the corrected format and uniqueness checks (`Queues.FormatErrors`, `Queues.ClassNumberTaken`), so it refuses two inputs the source saves: a class number such as `"CS1\n<x>"`, and `"cs1"` next to a stored `"CS1"` of the same instructor (see "## Findings").
- Queues.SaveKeepsClassNumbersUnique: covers saving a new queue only; an update of a stored queue is not covered.
- A missing instructor: every queue carries an instructor id.
- Participants.IsTa: the source decides `ta?` and `student?` by the record's class, so a plain `QueueUser` is neither. The model's `Role` has only the two subclasses, so such a record cannot be represented.
- Queues.ValidIff: states the corrected format and uniqueness rules; the rules as written are `Text.MatchesWordLines` and `Queues.ClassNumberTakenAsWritten` (see "## Findings").

=== FILE: database.dfy ===
/** The abstract store the queue operates on: every participant record, each tagged
    with its role and the id of the queue it belongs to, and one partial map from a TA's
    id to the id of the student that TA is helping. `ta.student` reads the map forward;
    `student.ta` is derived from it, so the two sides cannot disagree. */
module Database {
  import opened Wrappers
  import opened Participants

  datatype Store = Store(users: seq<User>, pairing: map<UserId, UserId>)

  /** Index of the first record with the given id. */
  function FindUser(users: seq<User>, id: UserId): (r: Option<nat>)
    ensures r.Some? ==> r.value < |users| && users[r.value].id == id
    ensures r.Some? ==> forall k :: 0 <= k < r.value ==> users[k].id != id
    ensures r.None? ==> forall k :: 0 <= k < |users| ==> users[k].id != id
  {
    if |users| == 0 then None
    else if users[0].id == id then Some(0)
    else match FindUser(users[1..], id)
      case None => None
      case Some(k) => Some(k + 1)
  }

  /** The first record with the given id. */
  function Lookup(users: seq<User>, id: UserId): (r: Option<User>)
    ensures r.Some? ==> r.value in users && r.value.id == id
    ensures r.None? ==> forall u :: u in users ==> u.id != id
  {
    match FindUser(users, id)
    case None => None
    case Some(i) => Some(users[i])
  }

  predicate UniqueIds(users: seq<User>) {
    forall i, j :: 0 <= i < j < |users| ==> users[i].id != users[j].id
  }

  predicate Injective(p: map<UserId, UserId>) {
    forall t1, t2 :: t1 in p && t2 in p && t1 != t2 ==> p[t1] != p[t2]
  }

  /** `t` is a TA and `s` a student of one and the same queue. */
  predicate Pairable(users: seq<User>, t: UserId, s: UserId) {
    exists u, v :: u in users && v in users && Pairs(u, v, t, s)
  }

  predicate Pairs(u: User, v: User, t: UserId, s: UserId) {
    u.id == t && v.id == s && IsTa(u) && IsStudent(v) && u.queueId == v.queueId
  }

  /** The store invariant: ids are unique, every pairing joins a TA to a student of the
      same queue, and no student is paired with two TAs. */
  predicate Consistent(st: Store) {
    && UniqueIds(st.users)
    && (forall t :: t in st.pairing ==> Pairable(st.users, t, st.pairing[t]))
    && Injective(st.pairing)
  }

  /** `ta.student` */
  function StudentOf(st: Store, t: UserId): Option<UserId> {
    if t in st.pairing then Some(st.pairing[t]) else None
  }

  /** `student.ta`: the first TA in the store whose pairing names the student. */
  function TaOfIn(users: seq<User>, p: map<UserId, UserId>, s: UserId): (r: Option<UserId>)
    ensures r.Some? ==> r.value in p && p[r.value] == s
    ensures r.Some? ==> exists k :: 0 <= k < |users| && users[k].id == r.value && IsTa(users[k])
    ensures r.None? ==>
      forall k :: 0 <= k < |users| && IsTa(users[k]) && users[k].id in p ==> p[users[k].id] != s
  {
    if |users| == 0 then None
    else if IsTa(users[0]) && users[0].id in p && p[users[0].id] == s then Some(users[0].id)
    else
      var r := TaOfIn(users[1..], p, s);
      assert r.Some? ==> exists k :: 0 <= k < |users| && users[k].id == r.value && IsTa(users[k]) by {
        if r.Some? {
          var k :| 0 <= k < |users[1..]| && users[1..][k].id == r.value && IsTa(users[1..][k]);
          assert users[k + 1] == users[1..][k];
        }
      }
      r
  }

  function TaOf(st: Store, s: UserId): Option<UserId> {
    TaOfIn(st.users, st.pairing, s)
  }

  /** In a consistent store the two directions agree: `student.ta == ta` exactly when
      `ta.student == student`. */
  lemma TaOfIsInverse(st: Store, t: UserId, s: UserId)
    requires Consistent(st)
    ensures TaOf(st, s) == Some(t) <==> StudentOf(st, t) == Some(s)
  {
    if StudentOf(st, t) == Some(s) {
      var u, v :| u in st.users && v in st.users && Pairs(u, v, t, s);
      var k :| 0 <= k < |st.users| && st.users[k] == u;
      var r := TaOf(st, s);
      assert r.Some?;
      assert st.pairing[r.value] == s;
    }
  }

  /** A student with no TA is named by no pairing at all. */
  lemma {:induction false} NoTaMeansUnpaired(st: Store, s: UserId)
    requires Consistent(st)
    requires TaOf(st, s).None?
    ensures s !in st.pairing.Values
  {
  }

  // ---------------------------------------------------------------------
  // Updates that keep every record's id, queue and role tag
  // ---------------------------------------------------------------------

  predicate SameShape(a: seq<User>, b: seq<User>) {
    && |a| == |b|
    && forall k :: 0 <= k < |a| ==>
         a[k].id == b[k].id && a[k].queueId == b[k].queueId && a[k].role.Ta? == b[k].role.Ta?
  }

  lemma {:induction false} FindUserSameShape(a: seq<User>, b: seq<User>, id: UserId)
    requires SameShape(a, b)
    ensures FindUser(a, id) == FindUser(b, id)
    decreases |a|
  {
    if |a| > 0 && a[0].id != id {
      assert SameShape(a[1..], b[1..]);
      FindUserSameShape(a[1..], b[1..], id);
    }
  }

  lemma UniqueIdsSameShape(a: seq<User>, b: seq<User>)
    requires SameShape(a, b) && UniqueIds(a)
    ensures UniqueIds(b)
  {
    forall i, j | 0 <= i < j < |b| ensures b[i].id != b[j].id {
      assert a[i].id != a[j].id;
    }
  }

  /** With unique ids, looking up a stored record's id finds that record. */
  lemma LookupFindsRecord(users: seq<User>, u: User)
    requires UniqueIds(users) && u in users
    ensures Lookup(users, u.id) == Some(u)
  {
    var k :| 0 <= k < |users| && users[k] == u;
    var i := FindUser(users, u.id).value;
    assert i == k;
  }

  /** Changing only fields other than id, queue and role tag keeps a store consistent. */
  lemma ConsistentSameShape(st: Store, users': seq<User>)
    requires Consistent(st)
    requires SameShape(st.users, users')
    ensures Consistent(Store(users', st.pairing))
  {
    forall t | t in st.pairing
      ensures Pairable(users', t, st.pairing[t])
    {
      var u, v :| u in st.users && v in st.users && Pairs(u, v, t, st.pairing[t]);
      var i :| 0 <= i < |st.users| && st.users[i] == u;
      var j :| 0 <= j < |st.users| && st.users[j] == v;
      assert Pairs(users'[i], users'[j], t, st.pairing[t]);
    }
  }

  /** Pairing a free TA with an unpaired student of the same queue keeps a store
      consistent. */
  lemma ConsistentAddPairing(users: seq<User>, p: map<UserId, UserId>, t: UserId, s: UserId)
    requires Consistent(Store(users, p))
    requires t !in p && s !in p.Values && Pairable(users, t, s)
    ensures Consistent(Store(users, p[t := s]))
  {
    var p' := p[t := s];
    forall t1, t2 | t1 in p' && t2 in p' && t1 != t2 ensures p'[t1] != p'[t2] {
      if t1 == t { assert p'[t2] == p[t2]; }
      if t2 == t { assert p'[t1] == p[t1]; }
    }
  }

  /** Dropping pairings keeps a store consistent. */
  lemma ConsistentSubPairing(users: seq<User>, p: map<UserId, UserId>, p': map<UserId, UserId>)
    requires Consistent(Store(users, p))
    requires forall t :: t in p' ==> t in p && p'[t] == p[t]
    ensures Consistent(Store(users, p'))
  {
  }

  /** Re-pointing TA `t` at student `s` keeps the store consistent when no other TA holds `s`. */
  lemma ConsistentRepoint(users: seq<User>, p: map<UserId, UserId>, t: UserId, s: UserId)
    requires Consistent(Store(users, p))
    requires Pairable(users, t, s)
    requires forall t2 :: t2 in p && t2 != t ==> p[t2] != s
    ensures Consistent(Store(users, p[t := s]))
  {
    var released := p - {t};
    ConsistentSubPairing(users, p, released);
    assert p[t := s] == released[t := s];
    ConsistentAddPairing(users, released, t, s);
  }
}

=== FILE: queue_actions.dfy ===
/** The participant operations on a queue, as the controller examples exercise them:
    a student enters or exits the waiting line, a TA accepts a student, and a TA whose
    student exits is handed the next waiting student (backfill). Every operation either
    refuses with an error, leaving the store as it was, or returns the new store. */
module QueueActions {
  import opened Wrappers
  import opened Participants
  import opened Database
  import opened Queues
  import opened WaitingLine

  datatype ActionError = QueueInactive | QueueFrozen | NotFound | AlreadyHelped

  /** `sid` names a student of queue `qid`. */
  predicate StudentHere(st: Store, sid: UserId, qid: QueueId) {
    var u := Lookup(st.users, sid);
    u.Some? && IsStudentOfQueue(u.value, qid)
  }

  /** The gate in front of `enter` and `exit`: an inactive queue refuses first, then a
      frozen one. */
  function EnterExitGate(q: SchoolQueue): (r: Option<ActionError>)
    ensures r.None? <==> Open(q)
    ensures !Truthy(q.active) ==> r == Some(QueueInactive)
    ensures Truthy(q.active) && Truthy(q.frozen) ==> r == Some(QueueFrozen)
  {
    if !Truthy(q.active) then Some(QueueInactive)
    else if Truthy(q.frozen) then Some(QueueFrozen)
    else None
  }

  /** Sets the `in_queue` time of the student with id `sid`. */
  function SetJoin(st: Store, sid: UserId, t: Option<Time>): (r: Store)
    requires Lookup(st.users, sid).Some? && IsStudent(Lookup(st.users, sid).value)
    ensures r.pairing == st.pairing && SameShape(st.users, r.users)
    ensures forall k :: 0 <= k < |st.users| && st.users[k].id != sid ==> r.users[k] == st.users[k]
    ensures Lookup(r.users, sid) == Some(Lookup(st.users, sid).value.(role := Student(t)))
  {
    var i := FindUser(st.users, sid).value;
    var users' := st.users[i := st.users[i].(role := Student(t))];
    FindUserSameShape(st.users, users', sid);
    Store(users', st.pairing)
  }

  // ---------------------------------------------------------------------
  // enter
  // ---------------------------------------------------------------------

  /** `enter_queue`: an open queue records `now` as the student's `in_queue` time;
      entering again only moves that time. */
  function Enter(q: SchoolQueue, st: Store, sid: UserId, now: Time): (r: Result<Store, ActionError>)
    ensures !Truthy(q.active) ==> r == Failure(QueueInactive)
    ensures Truthy(q.active) && Truthy(q.frozen) ==> r == Failure(QueueFrozen)
    ensures Open(q) ==> (r.Success? <==> StudentHere(st, sid, q.id))
    ensures Open(q) && r.Failure? ==> r.error == NotFound
    ensures r.Success? ==>
      && r.value.pairing == st.pairing
      && SameShape(st.users, r.value.users)
      && (forall k :: 0 <= k < |st.users| && st.users[k].id != sid ==> r.value.users[k] == st.users[k])
      && Lookup(r.value.users, sid) == Some(Lookup(st.users, sid).value.(role := Student(Some(now))))
  {
    match EnterExitGate(q)
    case Some(e) => Failure(e)
    case None =>
      if !StudentHere(st, sid, q.id) then Failure(NotFound)
      else Success(SetJoin(st, sid, Some(now)))
  }

  lemma EnterPreservesConsistent(q: SchoolQueue, st: Store, sid: UserId, now: Time)
    requires Consistent(st)
    ensures Enter(q, st, sid, now).Success? ==> Consistent(Enter(q, st, sid, now).value)
  {
    var r := Enter(q, st, sid, now);
    if r.Success? {
      ConsistentSameShape(st, r.value.users);
    }
  }

  /** After entering, the student is on the waiting list exactly once; if no other
      student of the queue was waiting, the list is that student alone. */
  lemma {:induction false} EnterJoinsLine(q: SchoolQueue, st: Store, sid: UserId, now: Time)
    requires UniqueIds(st.users)
    requires Enter(q, st, sid, now).Success?
    ensures var st' := Enter(q, st, sid, now).value;
            var s := Lookup(st'.users, sid).value;
            && s in WaitingList(st', q.id)
            && multiset(WaitingList(st', q.id))[s] == 1
            && ((forall u :: u in st.users && u.id != sid ==> !IsWaitingIn(u, q.id))
                ==> WaitingList(st', q.id) == [s])
  {
    var st' := Enter(q, st, sid, now).value;
    var s := Lookup(st'.users, sid).value;
    UniqueIdsSameShape(st.users, st'.users);
    var i := FindUser(st'.users, sid).value;
    OnlyOnce(st'.users, i);
    if forall u :: u in st.users && u.id != sid ==> !IsWaitingIn(u, q.id) {
      forall u | u in st'.users && u != s ensures !IsWaitingIn(u, q.id) {
        LookupFindsRecord(st'.users, u);
        var k :| 0 <= k < |st'.users| && st'.users[k] == u;
        assert st.users[k] == u;
      }
      LineOfOne(st'.users, q.id, s);
    }
  }

  /** With unique ids, a record occurs once in the store. */
  lemma OnlyOnce(users: seq<User>, i: nat)
    requires UniqueIds(users) && i < |users|
    ensures multiset(users)[users[i]] == 1
  {
    var u := users[i];
    assert users == users[..i] + [u] + users[i + 1..];
    assert u !in users[..i] by {
      forall k | 0 <= k < i ensures users[..i][k] != u { assert users[k].id != u.id; }
    }
    var tail := users[i + 1..];
    assert u !in tail by {
      forall x | x in tail ensures x != u {
        var k :| 0 <= k < |tail| && tail[k] == x;
        assert users[i + 1 + k] == x;
      }
    }
    assert multiset(users) == multiset(users[..i]) + multiset{u} + multiset(users[i + 1..]);
  }

  // ---------------------------------------------------------------------
  // accept
  // ---------------------------------------------------------------------

  /** `accept_student!`: pair the TA with the student. A student already helped by a
      different TA is refused; the TA's previous student, if any, loses its TA. What
      accepting does to the student's `in_queue` is not fixed here: the caller supplies
      the value it ends with as `joined`. */
  function Accept(q: SchoolQueue, st: Store, tid: UserId, sid: UserId, joined: Option<Time>): (r: Result<Store, ActionError>)
    ensures !Truthy(q.active) ==> r == Failure(QueueInactive)
    ensures Truthy(q.active) ==>
      (r.Success? <==> IsTaOfQueue(st.users, tid, q.id) && StudentHere(st, sid, q.id) && TaOf(st, sid) in {None, Some(tid)})
    ensures r.Success? ==>
      && SameShape(st.users, r.value.users)
      && (forall k :: 0 <= k < |st.users| && st.users[k].id != sid ==> r.value.users[k] == st.users[k])
      && Lookup(r.value.users, sid) == Some(Lookup(st.users, sid).value.(role := Student(joined)))
      && StudentOf(r.value, tid) == Some(sid)
      && (forall t :: t != tid ==> StudentOf(r.value, t) == StudentOf(st, t))
  {
    if !Truthy(q.active) then Failure(QueueInactive)
    else if !IsTaOfQueue(st.users, tid, q.id) || !StudentHere(st, sid, q.id) then Failure(NotFound)
    else if TaOf(st, sid).Some? && TaOf(st, sid).value != tid then Failure(AlreadyHelped)
    else Success(Store(SetJoin(st, sid, joined).users, st.pairing[tid := sid]))
  }

  /** Whether a queue is frozen has no bearing on `accept`. */
  lemma AcceptIgnoresFrozen(q: SchoolQueue, st: Store, tid: UserId, sid: UserId, joined: Option<Time>, frozen: BoolField)
    ensures Accept(q.(frozen := frozen), st, tid, sid, joined) == Accept(q, st, tid, sid, joined)
  {
  }

  /** Accepting links both sides (`ta.student == s` and `s.ta == ta`), keeps the store
      consistent, and leaves the TA's previous student without a TA. */
  lemma AcceptLinksBothSides(q: SchoolQueue, st: Store, tid: UserId, sid: UserId, joined: Option<Time>)
    requires Consistent(st)
    requires Accept(q, st, tid, sid, joined).Success?
    ensures var st' := Accept(q, st, tid, sid, joined).value;
            && Consistent(st')
            && TaOf(st', sid) == Some(tid)
            && (forall prev :: StudentOf(st, tid) == Some(prev) && prev != sid ==> TaOf(st', prev).None?)
  {
    var st' := Accept(q, st, tid, sid, joined).value;
    AcceptKeepsConsistent(q, st, tid, sid, joined);
    TaOfIsInverse(st', tid, sid);
    AcceptReleasesPrevious(q, st, tid, sid, joined);
  }

  /** The TA's previous student, if it is not the one accepted, is left without a TA. */
  lemma AcceptReleasesPrevious(q: SchoolQueue, st: Store, tid: UserId, sid: UserId, joined: Option<Time>)
    requires Consistent(st)
    requires Accept(q, st, tid, sid, joined).Success?
    ensures var st' := Accept(q, st, tid, sid, joined).value;
            forall prev :: StudentOf(st, tid) == Some(prev) && prev != sid ==> TaOf(st', prev).None?
  {
  }

  /** Accepting keeps the store consistent. */
  lemma AcceptKeepsConsistent(q: SchoolQueue, st: Store, tid: UserId, sid: UserId, joined: Option<Time>)
    requires Consistent(st)
    requires Accept(q, st, tid, sid, joined).Success?
    ensures Consistent(Accept(q, st, tid, sid, joined).value)
  {
    var st' := Accept(q, st, tid, sid, joined).value;
    AcceptPairable(q, st, tid, sid, joined);
    ConsistentSameShape(st, st'.users);
    forall t2 | t2 in st.pairing && t2 != tid ensures st.pairing[t2] != sid {
      if st.pairing[t2] == sid { TaOfIsInverse(st, t2, sid); }
    }
    ConsistentRepoint(st'.users, st.pairing, tid, sid);
  }

  /** The TA and the student `accept` links are a TA and a student of the same queue. */
  lemma AcceptPairable(q: SchoolQueue, st: Store, tid: UserId, sid: UserId, joined: Option<Time>)
    requires Consistent(st)
    requires Accept(q, st, tid, sid, joined).Success?
    ensures Pairable(Accept(q, st, tid, sid, joined).value.users, tid, sid)
  {
    var users' := Accept(q, st, tid, sid, joined).value.users;
    var k :| 0 <= k < |st.users| && st.users[k].id == tid && IsTa(st.users[k]) && st.users[k].queueId == q.id;
    assert tid != sid by {
      LookupFindsRecord(st.users, st.users[k]);
    }
    assert users'[k] == st.users[k];
    var su := Lookup(users', sid).value;
    assert Pairs(users'[k], su, tid, sid);
  }

  /** The accepted student is on the waiting list afterwards exactly when accepting leaves
      it an `in_queue` time. */
  lemma AcceptListsStudentIffJoined(q: SchoolQueue, st: Store, tid: UserId, sid: UserId, joined: Option<Time>)
    requires Accept(q, st, tid, sid, joined).Success?
    ensures var st' := Accept(q, st, tid, sid, joined).value;
            Lookup(st'.users, sid).value in WaitingList(st', q.id) <==> joined.Some?
  {
  }

  // ---------------------------------------------------------------------
  // exit, with backfill
  // ---------------------------------------------------------------------

  /** A student who may take over a TA freed by `exclude` leaving: waiting in the queue,
      not the one leaving, and not already paired with a TA. */
  predicate Eligible(u: User, p: map<UserId, UserId>, qid: QueueId, exclude: UserId) {
    IsWaitingIn(u, qid) && u.id != exclude && u.id !in p.Values
  }

  /** `c` is stored at some position before which every eligible record joined strictly
      later than `c`: among eligible records with `c`'s join time, `c` comes first. */
  predicate FirstOfTies(users: seq<User>, c: User, p: map<UserId, UserId>, qid: QueueId, exclude: UserId) {
    exists j :: 0 <= j < |users| && users[j] == c
      && (forall k :: 0 <= k < j && Eligible(users[k], p, qid, exclude) ==> JoinTime(c) < JoinTime(users[k]))
  }

  /** A record that comes first among ties in the tail does so in the whole sequence when
      the head is not an eligible tie of it. */
  lemma FirstOfTiesPastHead(users: seq<User>, c: User, p: map<UserId, UserId>, qid: QueueId, exclude: UserId)
    requires users != [] && FirstOfTies(users[1..], c, p, qid, exclude)
    requires !Eligible(users[0], p, qid, exclude) || JoinTime(c) < JoinTime(users[0])
    ensures FirstOfTies(users, c, p, qid, exclude)
  {
    var j :| 0 <= j < |users[1..]| && users[1..][j] == c
      && (forall k :: 0 <= k < j && Eligible(users[1..][k], p, qid, exclude) ==> JoinTime(c) < JoinTime(users[1..][k]));
    forall k | 0 <= k < j + 1 && Eligible(users[k], p, qid, exclude) ensures JoinTime(c) < JoinTime(users[k]) {
      if k > 0 { assert users[k] == users[1..][k - 1]; }
    }
    assert users[j + 1] == c;
  }

  /** The backfill choice: the eligible student with the earliest `in_queue` time, the
      earlier record on a tie. */
  function NextWaiting(users: seq<User>, p: map<UserId, UserId>, qid: QueueId, exclude: UserId): (r: Option<User>)
    ensures r.Some? ==> r.value in users && Eligible(r.value, p, qid, exclude)
    ensures r.Some? ==> forall v :: v in users && Eligible(v, p, qid, exclude) ==> JoinTime(r.value) <= JoinTime(v)
    ensures r.None? <==> forall v :: v in users ==> !Eligible(v, p, qid, exclude)
    ensures r.Some? ==> FirstOfTies(users, r.value, p, qid, exclude)
  {
    if users == [] then None
    else
      var rest := NextWaiting(users[1..], p, qid, exclude);
      assert forall v :: v in users ==> v == users[0] || v in users[1..];
      if !Eligible(users[0], p, qid, exclude) || (rest.Some? && JoinTime(rest.value) < JoinTime(users[0])) then
        assert rest.Some? ==> FirstOfTies(users, rest.value, p, qid, exclude) by {
          if rest.Some? { FirstOfTiesPastHead(users, rest.value, p, qid, exclude); }
        }
        rest
      else
        assert FirstOfTies(users, users[0], p, qid, exclude) by {
          assert users[0] == users[0];
        }
        Some(users[0])
  }

  /** The TA `t` stops helping `sid` and is handed the earliest eligible waiting
      student of the queue, or is left free when there is none. */
  function Backfill(users: seq<User>, p: map<UserId, UserId>, t: UserId, qid: QueueId, sid: UserId): (r: map<UserId, UserId>)
    requires t in p && p[t] == sid
    ensures forall t' :: t' != t ==> (t' in r <==> t' in p) && (t' in r ==> r[t'] == p[t'])
    ensures t in r ==> r[t] != sid
    ensures t !in r <==> forall v :: v in users ==> !Eligible(v, p, qid, sid)
    ensures t in r ==>
      (exists c :: c in users && c.id == r[t] && Eligible(c, p, qid, sid)
         && (forall v :: v in users && Eligible(v, p, qid, sid) ==> JoinTime(c) <= JoinTime(v)))
  {
    var released := p - {t};
    assert forall v :: Eligible(v, released, qid, sid) <==> Eligible(v, p, qid, sid) by {
      forall v ensures Eligible(v, released, qid, sid) <==> Eligible(v, p, qid, sid) {
        if v.id in p.Values && v.id != sid {
          var t' :| t' in p && p[t'] == v.id;
          assert t' != t;
          assert t' in released && released[t'] == v.id;
        }
      }
    }
    match NextWaiting(users, released, qid, sid)
    case None => released
    case Some(c) => released[t := c.id]
  }

  /** `exit_queue`: an open queue clears the student's `in_queue` time. If a TA was
      helping the student, that pairing ends and the TA is handed the earliest eligible
      waiting student, or is left free when there is none. Exiting while not waiting is
      not an error. */
  function Exit(q: SchoolQueue, st: Store, sid: UserId): (r: Result<Store, ActionError>)
    ensures !Truthy(q.active) ==> r == Failure(QueueInactive)
    ensures Truthy(q.active) && Truthy(q.frozen) ==> r == Failure(QueueFrozen)
    ensures Open(q) ==> (r.Success? <==> StudentHere(st, sid, q.id))
    ensures Open(q) && r.Failure? ==> r.error == NotFound
    ensures r.Success? ==>
      && SameShape(st.users, r.value.users)
      && (forall k :: 0 <= k < |st.users| && st.users[k].id != sid ==> r.value.users[k] == st.users[k])
      && Lookup(r.value.users, sid) == Some(Lookup(st.users, sid).value.(role := Student(None)))
    ensures r.Success? && TaOf(st, sid).None? ==> r.value.pairing == st.pairing
    ensures r.Success? && TaOf(st, sid).Some? ==>
      r.value.pairing == Backfill(r.value.users, st.pairing, TaOf(st, sid).value, q.id, sid)
  {
    match EnterExitGate(q)
    case Some(e) => Failure(e)
    case None =>
      if !StudentHere(st, sid, q.id) then Failure(NotFound)
      else
        var st1 := SetJoin(st, sid, None);
        match TaOf(st, sid)
        case None => Success(st1)
        case Some(t) => Success(Store(st1.users, Backfill(st1.users, st.pairing, t, q.id, sid)))
  }

  /** Backfilling keeps the store consistent, names the leaver in no pairing, and
      links a newly handed student from both sides. */
  lemma BackfillPreservesConsistent(users: seq<User>, p: map<UserId, UserId>, t: UserId, qid: QueueId, sid: UserId)
    requires Consistent(Store(users, p))
    requires t in p && p[t] == sid
    requires Lookup(users, sid).Some? && IsStudentOfQueue(Lookup(users, sid).value, qid)
    ensures var r := Backfill(users, p, t, qid, sid);
            && Consistent(Store(users, r))
            && sid !in r.Values
            && (t in r ==> TaOf(Store(users, r), r[t]) == Some(t))
  {
    var r := Backfill(users, p, t, qid, sid);
    var released := p - {t};
    ConsistentSubPairing(users, p, released);
    assert sid !in released.Values by {
      forall t' | t' in released ensures released[t'] != sid {
        assert p[t'] != p[t];
      }
    }
    if t in r {
      var c := r[t];
      assert r == released[t := c];
      var cu :| cu in users && cu.id == c && Eligible(cu, p, qid, sid);
      assert Pairable(users, t, c) by {
        LeaverSharesQueue(users, p, t, qid, sid);
        var k :| 0 <= k < |users| && users[k].id == t && IsTa(users[k]) && users[k].queueId == qid;
        var u := users[k];
        assert Pairs(u, cu, t, c);
      }
      ConsistentAddPairing(users, released, t, c);
      TaOfIsInverse(Store(users, r), t, c);
    } else {
      assert r == released;
    }
  }

  /** The TA helping a student of queue `qid` is a TA of that queue. */
  lemma LeaverSharesQueue(users: seq<User>, p: map<UserId, UserId>, t: UserId, qid: QueueId, sid: UserId)
    requires Consistent(Store(users, p))
    requires t in p && p[t] == sid
    requires Lookup(users, sid).Some? && IsStudentOfQueue(Lookup(users, sid).value, qid)
    ensures IsTaOfQueue(users, t, qid)
  {
    var u, v :| u in users && v in users && Pairs(u, v, t, sid);
    var s := Lookup(users, sid).value;
    var i :| 0 <= i < |users| && users[i] == v;
    var j :| 0 <= j < |users| && users[j] == s;
    assert i == j;
    var h :| 0 <= h < |users| && users[h] == u;
  }

  /** Exiting keeps the store consistent and leaves the student without a TA; a
      student handed to the freed TA is linked from both sides. */
  lemma ExitPreservesConsistent(q: SchoolQueue, st: Store, sid: UserId)
    requires Consistent(st)
    requires Exit(q, st, sid).Success?
    ensures var st' := Exit(q, st, sid).value;
            && Consistent(st')
            && TaOf(st', sid).None?
            && (forall t, c :: TaOf(st, sid) == Some(t) && StudentOf(st', t) == Some(c) ==> TaOf(st', c) == Some(t))
  {
    var st' := Exit(q, st, sid).value;
    ExitBackfillFacts(q, st, sid);
    if TaOf(st, sid).None? {
      NoTaMeansUnpaired(st, sid);
      ConsistentSameShape(st, st'.users);
    }
  }

  /** What backfilling establishes, restated for the store `exit` returns. */
  lemma ExitBackfillFacts(q: SchoolQueue, st: Store, sid: UserId)
    requires Consistent(st)
    requires Exit(q, st, sid).Success?
    ensures var st' := Exit(q, st, sid).value;
            TaOf(st, sid).Some? ==>
              && Consistent(st')
              && sid !in st'.pairing.Values
              && (TaOf(st, sid).value in st'.pairing ==>
                    TaOf(st', st'.pairing[TaOf(st, sid).value]) == Some(TaOf(st, sid).value))
  {
    var st' := Exit(q, st, sid).value;
    if TaOf(st, sid).Some? {
      var t := TaOf(st, sid).value;
      ConsistentSameShape(st, st'.users);
      BackfillPreservesConsistent(st'.users, st.pairing, t, q.id, sid);
    }
  }

  /** After exiting, the student is off the waiting list; if no other student of the
      queue is waiting, the list is empty. */
  lemma ExitLeavesLine(q: SchoolQueue, st: Store, sid: UserId)
    requires UniqueIds(st.users)
    requires Exit(q, st, sid).Success?
    ensures var st' := Exit(q, st, sid).value;
            && Lookup(st'.users, sid).value !in WaitingList(st', q.id)
            && ((forall u :: u in st.users && u.id != sid ==> !IsWaitingIn(u, q.id))
                ==> WaitingList(st', q.id) == [])
  {
    var st' := Exit(q, st, sid).value;
    if forall u :: u in st.users && u.id != sid ==> !IsWaitingIn(u, q.id) {
      UniqueIdsSameShape(st.users, st'.users);
      forall u | u in st'.users ensures !IsWaitingIn(u, q.id) {
        var k :| 0 <= k < |st'.users| && st'.users[k] == u;
        if u.id == sid {
          LookupFindsRecord(st'.users, u);
        } else {
          assert st.users[k] == u;
        }
      }
    }
  }

  /** The assigned student exits while exactly one other, unpaired student waits: the
      TA is handed that student and both sides agree; the leaver has no TA. */
  lemma ExitHandsTaToOtherStudent(q: SchoolQueue, st: Store, sid: UserId, t: UserId, other: User)
    requires Consistent(st) && Open(q)
    requires StudentHere(st, sid, q.id)
    requires StudentOf(st, t) == Some(sid)
    requires other in st.users && Eligible(other, st.pairing, q.id, sid)
    requires forall v :: v in st.users && Eligible(v, st.pairing, q.id, sid) ==> v == other
    ensures Exit(q, st, sid).Success?
    ensures var st' := Exit(q, st, sid).value;
            && StudentOf(st', t) == Some(other.id)
            && TaOf(st', other.id) == Some(t)
            && TaOf(st', sid).None?
  {
    TaOfIsInverse(st, t, sid);
    var st' := Exit(q, st, sid).value;
    BackfillPicksOnlyCandidate(st.users, st'.users, st.pairing, t, q.id, sid, other);
    ExitPreservesConsistent(q, st, sid);
  }

  /** Backfill over a store in which only the leaver's record changed hands the TA to
      the single eligible student. */
  lemma BackfillPicksOnlyCandidate(users: seq<User>, users': seq<User>, p: map<UserId, UserId>,
                                   t: UserId, qid: QueueId, sid: UserId, other: User)
    requires t in p && p[t] == sid
    requires SameShape(users, users')
    requires forall k :: 0 <= k < |users| && users[k].id != sid ==> users'[k] == users[k]
    requires other in users && Eligible(other, p, qid, sid)
    requires forall v :: v in users && Eligible(v, p, qid, sid) ==> v == other
    ensures t in Backfill(users', p, t, qid, sid)
    ensures Backfill(users', p, t, qid, sid)[t] == other.id
  {
    var r := Backfill(users', p, t, qid, sid);
    var k :| 0 <= k < |users| && users[k] == other;
    assert users'[k] == other;
    assert t in r;
    var cu :| cu in users' && cu.id == r[t] && Eligible(cu, p, qid, sid);
    var j :| 0 <= j < |users'| && users'[j] == cu;
    assert users[j] == cu;
  }

  /** The assigned student exits and no other student is eligible: the exit succeeds
      and both sides of the pairing become empty. */
  lemma ExitWithNoReplacement(q: SchoolQueue, st: Store, sid: UserId, t: UserId)
    requires Consistent(st) && Open(q)
    requires StudentHere(st, sid, q.id)
    requires StudentOf(st, t) == Some(sid)
    requires forall v :: v in st.users ==> !Eligible(v, st.pairing, q.id, sid)
    ensures Exit(q, st, sid).Success?
    ensures StudentOf(Exit(q, st, sid).value, t).None?
    ensures TaOf(Exit(q, st, sid).value, sid).None?
  {
    TaOfIsInverse(st, t, sid);
    var st' := Exit(q, st, sid).value;
    forall v | v in st'.users ensures !Eligible(v, st.pairing, q.id, sid) {
      var k :| 0 <= k < |st'.users| && st'.users[k] == v;
      if st.users[k].id != sid {
        assert st.users[k] == v;
      }
    }
    ExitPreservesConsistent(q, st, sid);
  }
}

=== FILE: queue_user.dfy ===
/** A participant of a queue (`QueueUser`), tagged Student or TA. */
module Participants {
  import opened Wrappers
  import opened Text

  type UserId = nat
  type QueueId = nat
  /** A point in time, in whole seconds. */
  type Time = int

  /** The role tag. A student carries its `in_queue` join time; `None` means not waiting. */
  datatype Role = Student(inQueue: Option<Time>) | Ta

  datatype User = User(
    id: UserId,
    queueId: QueueId,
    role: Role,
    username: Option<string>,
    token: Option<string>,
    location: Option<string>,
    aliveTime: Option<Time>)

  /** Placeholder names a participant may not register under (compared case-sensitively). */
  const ReservedNames: seq<string> := ["username", "Username", "name", "Name"]
  const MaxUsernameLength: nat := 40
  /** The heartbeat freshness window: 15 minutes. */
  const FreshnessWindow: int := 15 * 60

  function IsTa(u: User): (r: bool)
    ensures r <==> !IsStudent(u)
  {
    u.role.Ta?
  }

  function IsStudent(u: User): bool {
    u.role.Student?
  }

  /** A participant created with the record's defaults: the token stands for a fresh
      UUID supplied by the caller and the heartbeat is the creation time. */
  function NewUser(id: UserId, queueId: QueueId, role: Role, username: Option<string>,
                   token: string, location: Option<string>, now: Time): (u: User)
    requires Present(Some(token))
    ensures u.id == id && u.queueId == queueId && u.role == role && u.username == username
    ensures u.token == Some(token) && u.aliveTime == Some(now) && u.location == location
    ensures Valid(u) <==> UsernameErrors(username) == {}
    ensures KeepAlive(u, now) == u
  {
    User(id, queueId, role, username, Some(token), location, Some(now))
  }

  // ---------------------------------------------------------------------
  // Validations
  // ---------------------------------------------------------------------

  datatype UserError = UsernameBlank | UsernameLength | UsernameReserved | TokenBlank

  /** Length as the length validator sees it: `nil` counts as the empty string. */
  function LengthOf(s: Option<string>): nat {
    if s.Some? then |s.value| else 0
  }

  /** The three username validators, each contributing its own error. */
  function UsernameErrors(name: Option<string>): set<UserError> {
    (if Present(name) then {} else {UsernameBlank})
    + (if 1 <= LengthOf(name) <= MaxUsernameLength then {} else {UsernameLength})
    + (if name.Some? && name.value in ReservedNames then {UsernameReserved} else {})
  }

  function Errors(u: User): set<UserError> {
    UsernameErrors(u.username) + (if Present(u.token) then {} else {TokenBlank})
  }

  predicate Valid(u: User) {
    Errors(u) == {}
  }

  /** A participant is valid exactly when its username is present, 1..40 characters long
      and not a reserved placeholder, and its token is present. */
  lemma ValidIff(u: User)
    ensures Valid(u) <==>
      && u.username.Some?
      && Present(u.username)
      && 1 <= |u.username.value| <= MaxUsernameLength
      && u.username.value !in ReservedNames
      && Present(u.token)
  {
    if Valid(u) {
      assert UsernameBlank !in Errors(u);
      assert UsernameLength !in Errors(u);
      assert UsernameReserved !in Errors(u);
      assert TokenBlank !in Errors(u);
    }
  }

  /** The reserved-name check is case-sensitive: other casings are accepted. */
  lemma ReservedNamesAreCaseSensitive()
    ensures UsernameReserved in UsernameErrors(Some("name"))
    ensures UsernameErrors(Some("NAME")) == {}
    ensures UsernameErrors(Some("USERNAME")) == {}
  {
    assert "NAME" != "name" && "NAME" != "Name" && "NAME" != "username" && "NAME" != "Username";
    assert !IsSpace("NAME"[0]);
    assert !IsSpace("USERNAME"[0]);
    assert "USERNAME"[1] != "username"[1] && "USERNAME"[1] != "Username"[1];
  }

  // ---------------------------------------------------------------------
  // Heartbeat
  // ---------------------------------------------------------------------

  predicate Stale(alive: Option<Time>, now: Time) {
    alive.None? || alive.value + FreshnessWindow < now
  }

  /** `keep_alive`: record `now` as the heartbeat only when none is recorded or the
      recorded one is more than 15 minutes old. */
  function KeepAlive(u: User, now: Time): (r: User)
    ensures r == u.(aliveTime := r.aliveTime)
    ensures u.aliveTime.None? ==> r.aliveTime == Some(now)
    ensures Stale(u.aliveTime, now) ==> r.aliveTime == Some(now)
    ensures !Stale(u.aliveTime, now) ==> r == u
    ensures r.aliveTime.Some? && now <= r.aliveTime.value + FreshnessWindow
  {
    if u.aliveTime.None? then u.(aliveTime := Some(now))
    else if u.aliveTime.value + FreshnessWindow < now then u.(aliveTime := Some(now))
    else u
  }

  /** A heartbeat exactly 15 minutes old is still fresh. */
  lemma KeepAliveBoundary(u: User, now: Time)
    requires u.aliveTime == Some(now - FreshnessWindow)
    ensures KeepAlive(u, now) == u
  {
  }

  lemma KeepAliveIdempotent(u: User, now: Time)
    ensures KeepAlive(KeepAlive(u, now), now) == KeepAlive(u, now)
  {
  }
}

=== FILE: school_queue.dfy ===
/** The `SchoolQueue` record: its fields and defaults, its validations, and the two
    before-save callbacks (`check_active`, then `upcase_class_number`). */
module Queues {
  import opened Wrappers
  import opened Text
  import opened Participants
  import opened Database

  type InstructorId = nat

  /** A Boolean field as assigned: a real Boolean, `nil`, or some other raw value. */
  datatype BoolField = Bool(value: bool) | Nil | NonBoolean(raw: string)

  /** Ruby truthiness: only `false` and `nil` are false. */
  predicate Truthy(b: BoolField) {
    b != Bool(false) && b != Nil
  }

  datatype SchoolQueue = SchoolQueue(
    id: QueueId,
    instructor: InstructorId,
    title: Option<string>,
    active: BoolField,
    frozen: BoolField,
    questionBased: BoolField,
    classNumber: Option<string>,
    status: string,
    password: Option<string>)

  /** A queue that admits `enter` and `exit`. */
  predicate Open(q: SchoolQueue) {
    Truthy(q.active) && !Truthy(q.frozen)
  }

  /** A queue created with the field defaults: active, not frozen, not question based,
      empty status. */
  function NewQueue(id: QueueId, instructor: InstructorId, title: Option<string>,
                    classNumber: Option<string>, password: Option<string>): (q: SchoolQueue)
    ensures q.id == id && q.instructor == instructor
    ensures Open(q) && q.status == ""
    ensures FlagErrors(q) == {}
    ensures q.active == Bool(true) && q.frozen == Bool(false) && q.questionBased == Bool(false)
    ensures q.title == title && q.classNumber == classNumber && q.password == password
  {
    SchoolQueue(id, instructor, title, Bool(true), Bool(false), Bool(false), classNumber, "", password)
  }

  // ---------------------------------------------------------------------
  // Validations
  // ---------------------------------------------------------------------

  datatype Flag = FrozenFlag | ActiveFlag | QuestionBasedFlag
  datatype TextField = TitleField | ClassNumberField | PasswordField
  datatype QueueError = NotBoolean(flag: Flag) | Blank(field: TextField) | BadFormat | Taken

  function FlagErrors(q: SchoolQueue): set<QueueError> {
    (if q.frozen.Bool? then {} else {NotBoolean(FrozenFlag)})
    + (if q.active.Bool? then {} else {NotBoolean(ActiveFlag)})
    + (if q.questionBased.Bool? then {} else {NotBoolean(QuestionBasedFlag)})
  }

  function PresenceErrors(q: SchoolQueue): set<QueueError> {
    (if Present(q.title) then {} else {Blank(TitleField)})
    + (if Present(q.classNumber) then {} else {Blank(ClassNumberField)})
    + (if Present(q.password) then {} else {Blank(PasswordField)})
  }

  /** The class number as the format validator reads it (`nil` reads as ""). */
  function ClassText(q: SchoolQueue): string {
    if q.classNumber.Some? then q.classNumber.value else ""
  }

  /** The format rule as intended: only letters, digits and underscores. */
  function FormatErrors(q: SchoolQueue): set<QueueError> {
    if AllWordChars(ClassText(q)) then {} else {BadFormat}
  }

  function UpcaseOpt(s: Option<string>): Option<string> {
    if s.Some? then Some(Upcase(s.value)) else None
  }

  /** Uniqueness of the class number per instructor, compared after normalisation:
      another record of the same instructor already holds the same upcased number. */
  predicate ClassNumberTaken(q: SchoolQueue, others: seq<SchoolQueue>) {
    exists o :: o in others && o.id != q.id && o.instructor == q.instructor
      && UpcaseOpt(o.classNumber) == UpcaseOpt(q.classNumber)
  }

  /** Uniqueness as the record declares it: it runs before `upcase_class_number`, on
      the raw class number, against the stored (already upcased) numbers. */
  predicate ClassNumberTakenAsWritten(q: SchoolQueue, others: seq<SchoolQueue>) {
    exists o :: o in others && o.id != q.id && o.instructor == q.instructor
      && o.classNumber == q.classNumber
  }

  function Errors(q: SchoolQueue, others: seq<SchoolQueue>): set<QueueError> {
    FlagErrors(q) + PresenceErrors(q) + FormatErrors(q)
    + (if ClassNumberTaken(q, others) then {Taken} else {})
  }

  /** A queue is valid exactly when its three flags are literal Booleans, its title, class
      number and password are present, the class number holds only word characters,
      and no other queue of the instructor uses that class number. */
  lemma ValidIff(q: SchoolQueue, others: seq<SchoolQueue>)
    ensures Errors(q, others) == {} <==>
      && q.frozen.Bool? && q.active.Bool? && q.questionBased.Bool?
      && Present(q.title) && Present(q.classNumber) && Present(q.password)
      && AllWordChars(q.classNumber.value)
      && !ClassNumberTaken(q, others)
  {
    if Errors(q, others) == {} {
      assert NotBoolean(FrozenFlag) !in Errors(q, others);
      assert NotBoolean(ActiveFlag) !in Errors(q, others);
      assert NotBoolean(QuestionBasedFlag) !in Errors(q, others);
      assert Blank(TitleField) !in Errors(q, others);
      assert Blank(ClassNumberField) !in Errors(q, others);
      assert Blank(PasswordField) !in Errors(q, others);
      assert BadFormat !in Errors(q, others);
      assert Taken !in Errors(q, others);
    }
  }

  /** A flag assigned a value that is not a Boolean is reported against that flag. */
  lemma NonBooleanFlagRejected(q: SchoolQueue, others: seq<SchoolQueue>, raw: string)
    ensures NotBoolean(FrozenFlag) in Errors(q.(frozen := NonBoolean(raw)), others)
    ensures Save(q.(frozen := NonBoolean(raw)), others, Store([], map[])).Failure?
  {
  }

  /** For a class number without line feeds the intended rule and the line-anchored
      pattern of the record agree. */
  lemma FormatAgreesOnSingleLine(q: SchoolQueue)
    requires q.classNumber.Some?
    requires forall k :: 0 <= k < |q.classNumber.value| ==> q.classNumber.value[k] != '\n'
    ensures FormatErrors(q) == {} <==> MatchesWordLines(q.classNumber.value)
  {
    SingleLineMatchesIffWordChars(q.classNumber.value);
  }

  // ---------------------------------------------------------------------
  // Before-save callbacks
  // ---------------------------------------------------------------------

  predicate IsStudentOfQueue(u: User, qid: QueueId) {
    IsStudent(u) && u.queueId == qid
  }

  predicate IsTaOfQueue(users: seq<User>, t: UserId, qid: QueueId) {
    exists k :: 0 <= k < |users| && users[k].id == t && IsTa(users[k]) && users[k].queueId == qid
  }

  function ClearStudent(u: User, qid: QueueId): User {
    if IsStudentOfQueue(u, qid) then u.(role := Student(None)) else u
  }

  /** `check_active`: an inactive queue is reset. Every student of the queue leaves the
      waiting line, every TA of the queue loses its student, `frozen` becomes false and
      `status` becomes empty. An active queue is left exactly as it is. */
  function CheckActive(q: SchoolQueue, st: Store): (r: (SchoolQueue, Store))
    ensures Truthy(q.active) ==> r == (q, st)
    ensures !Truthy(q.active) ==> r.0.frozen == Bool(false) && r.0.status == ""
    ensures r.0.(frozen := q.frozen, status := q.status) == q
    ensures SameShape(st.users, r.1.users)
    ensures forall k :: 0 <= k < |st.users| ==>
      r.1.users[k] == st.users[k].(role := r.1.users[k].role)
    ensures !Truthy(q.active) ==> forall k :: 0 <= k < |st.users| ==>
      (IsStudentOfQueue(st.users[k], q.id) ==> r.1.users[k].role == Student(None))
      && (!IsStudentOfQueue(st.users[k], q.id) ==> r.1.users[k] == st.users[k])
    ensures !Truthy(q.active) ==> forall k :: 0 <= k < |st.users| ==>
      IsTa(st.users[k]) && st.users[k].queueId == q.id ==> st.users[k].id !in r.1.pairing
    ensures forall t :: t in st.pairing && !IsTaOfQueue(st.users, t, q.id) ==>
      t in r.1.pairing && r.1.pairing[t] == st.pairing[t]
    ensures forall t :: t in r.1.pairing ==> t in st.pairing && r.1.pairing[t] == st.pairing[t]
  {
    if Truthy(q.active) then (q, st)
    else
      var users' := seq(|st.users|, k requires 0 <= k < |st.users| => ClearStudent(st.users[k], q.id));
      var pairing' := map t | t in st.pairing && !IsTaOfQueue(st.users, t, q.id) :: st.pairing[t];
      (q.(frozen := Bool(false), status := ""), Store(users', pairing'))
  }

  /** Resetting keeps the store consistent. */
  lemma CheckActivePreservesConsistent(q: SchoolQueue, st: Store)
    requires Consistent(st)
    ensures Consistent(CheckActive(q, st).1)
  {
    var st' := CheckActive(q, st).1;
    ConsistentSameShape(st, st'.users);
    ConsistentSubPairing(st'.users, st.pairing, st'.pairing);
  }

  /** After resetting an inactive queue no student of it has a TA (`student.ta` is nil). */
  lemma CheckActiveReleasesStudents(q: SchoolQueue, st: Store, k: nat)
    requires Consistent(st)
    requires !Truthy(q.active)
    requires k < |st.users| && IsStudentOfQueue(st.users[k], q.id)
    ensures TaOf(CheckActive(q, st).1, st.users[k].id).None?
  {
  }

  /** Saving twice resets nothing more than saving once. */
  lemma CheckActiveIdempotent(q: SchoolQueue, st: Store)
    ensures CheckActive(CheckActive(q, st).0, CheckActive(q, st).1) == CheckActive(q, st)
  {
    if !Truthy(q.active) {
      var (q1, st1) := CheckActive(q, st);
      var (q2, st2) := CheckActive(q1, st1);
      assert q1.id == q.id && !Truthy(q1.active);
      forall t ensures IsTaOfQueue(st1.users, t, q.id) <==> IsTaOfQueue(st.users, t, q.id) {
        if IsTaOfQueue(st.users, t, q.id) {
          var k :| 0 <= k < |st.users| && st.users[k].id == t && IsTa(st.users[k]) && st.users[k].queueId == q.id;
          assert st1.users[k].id == t && IsTa(st1.users[k]) && st1.users[k].queueId == q.id;
        }
      }
      assert st2.pairing == st1.pairing;
      assert st2.users == st1.users;
    }
  }

  /** `upcase_class_number`: the stored class number is the upcased one. */
  function UpcaseClassNumber(q: SchoolQueue): (r: SchoolQueue)
    requires q.classNumber.Some?
    ensures r == q.(classNumber := r.classNumber) && r.classNumber.Some?
    ensures |r.classNumber.value| == |q.classNumber.value|
    ensures forall k :: 0 <= k < |q.classNumber.value| ==>
      r.classNumber.value[k] == UpcaseChar(q.classNumber.value[k])
    ensures forall k :: 0 <= k < |q.classNumber.value| ==> !IsLower(r.classNumber.value[k])
    ensures forall k :: 0 <= k < |q.classNumber.value| && !IsLower(q.classNumber.value[k]) ==>
      r.classNumber.value[k] == q.classNumber.value[k]
    ensures AllWordChars(r.classNumber.value) <==> AllWordChars(q.classNumber.value)
    ensures Upcase(r.classNumber.value) == r.classNumber.value
  {
    var s := q.classNumber.value;
    UpcaseIdempotent(s);
    UpcasePreservesWordChars(s);
    q.(classNumber := Some(Upcase(s)))
  }

  /** `save`: validations first; only a valid record runs the callbacks, in declaration
      order, and is stored. */
  function Save(q: SchoolQueue, others: seq<SchoolQueue>, st: Store): (r: Result<(SchoolQueue, Store), set<QueueError>>)
    ensures r.Failure? <==> Errors(q, others) != {}
    ensures r.Failure? ==> r.error == Errors(q, others)
    ensures r.Success? ==> FlagErrors(r.value.0) + PresenceErrors(r.value.0) + FormatErrors(r.value.0) == {}
    ensures r.Success? ==> Stored(r.value.0) && UpcaseOpt(q.classNumber) == r.value.0.classNumber
    ensures r.Success? ==> r.value.1 == CheckActive(q, st).1
    ensures r.Success? && Truthy(q.active) ==> r.value == (q.(classNumber := r.value.0.classNumber), st)
    ensures r.Success? && !Truthy(q.active) ==>
      r.value.0 == q.(frozen := Bool(false), status := "", classNumber := UpcaseOpt(q.classNumber))
  {
    var errs := Errors(q, others);
    if errs != {} then Failure(errs)
    else
      ValidIff(q, others);
      var (q1, st1) := CheckActive(q, st);
      var q2 := UpcaseClassNumber(q1);
      assert Present(q2.classNumber) by {
        var k :| 0 <= k < |q.classNumber.value| && !IsSpace(q.classNumber.value[k]);
        assert !IsSpace(q2.classNumber.value[k]);
      }
      Success((q2, st1))
  }

  // ---------------------------------------------------------------------
  // The collection of queues
  // ---------------------------------------------------------------------

  /** A record as it sits in the database after a save: its class number is upcased. */
  predicate Stored(q: SchoolQueue) {
    q.classNumber.Some? && Upcase(q.classNumber.value) == q.classNumber.value
  }

  /** No two queues of one instructor share a class number. */
  predicate UniqueClassNumbers(qs: seq<SchoolQueue>) {
    forall i, j :: 0 <= i < j < |qs| && qs[i].instructor == qs[j].instructor ==>
      qs[i].classNumber != qs[j].classNumber
  }

  /** Saving a new queue next to stored ones keeps class numbers unique per instructor. */
  lemma SaveKeepsClassNumbersUnique(others: seq<SchoolQueue>, q: SchoolQueue, st: Store)
    requires UniqueClassNumbers(others)
    requires forall o :: o in others ==> Stored(o) && o.id != q.id
    requires Save(q, others, st).Success?
    ensures UniqueClassNumbers(others + [Save(q, others, st).value.0])
  {
    var saved := Save(q, others, st).value.0;
    var all := others + [saved];
    forall i, j | 0 <= i < j < |all| && all[i].instructor == all[j].instructor
      ensures all[i].classNumber != all[j].classNumber
    {
      if j == |others| {
        var o := others[i];
        assert saved.instructor == q.instructor;
        if o.classNumber == saved.classNumber {
          assert false;
        }
      }
    }
  }

  /** The as-written uniqueness check lets a lower-case spelling of a stored class number
      through, and the upcasing callback then stores a duplicate. */
  lemma UniquenessCheckedBeforeUpcase()
    ensures Stored(StoredCs1())
    ensures !ClassNumberTakenAsWritten(LowerCs1(), [StoredCs1()])
    ensures !UniqueClassNumbers([StoredCs1(), UpcaseClassNumber(LowerCs1())])
    ensures ClassNumberTaken(LowerCs1(), [StoredCs1()])
  {
    var o := StoredCs1();
    var q := LowerCs1();
    assert Upcase("cs1") == "CS1";
    assert Upcase("CS1") == "CS1";
    assert "cs1" != "CS1";
    assert UpcaseOpt(o.classNumber) == UpcaseOpt(q.classNumber);
    var all := [o, UpcaseClassNumber(q)];
    assert all[0].instructor == all[1].instructor && all[0].classNumber == all[1].classNumber;
  }

  /** A stored queue of instructor 7 with class number "CS1". */
  function StoredCs1(): SchoolQueue {
    NewQueue(1, 7, Some("Algorithms"), Some("CS1"), Some("pw"))
  }

  /** A new queue of the same instructor spelling the class number "cs1". */
  function LowerCs1(): SchoolQueue {
    NewQueue(2, 7, Some("Algorithms"), Some("cs1"), Some("pw"))
  }

  // ---------------------------------------------------------------------
  // Deleting a queue deletes its participants
  // ---------------------------------------------------------------------

  /** `a` is `b` with some elements left out, the rest in their original order. */
  predicate Subsequence(a: seq<User>, b: seq<User>) {
    if a == [] then true
    else if b == [] then false
    else (a[0] == b[0] && Subsequence(a[1..], b[1..])) || Subsequence(a, b[1..])
  }

  /** The records that do not belong to queue `qid`, each as often as stored, in store
      order. */
  function KeepOthers(users: seq<User>, qid: QueueId): (r: seq<User>)
    ensures forall u :: multiset(r)[u] == if u.queueId != qid then multiset(users)[u] else 0
    ensures Subsequence(r, users)
    ensures forall u :: u in r <==> u in users && u.queueId != qid
    ensures UniqueIds(users) ==> UniqueIds(r)
  {
    if users == [] then []
    else
      var rest := KeepOthers(users[1..], qid);
      SplitFirst(users);
      UniqueTail(users);
      assert UniqueIds(users) ==> forall u :: u in rest ==> u.id != users[0].id by {
        if UniqueIds(users) {
          forall u | u in rest ensures u.id != users[0].id {
            var k :| 0 <= k < |users[1..]| && users[1..][k] == u;
            assert users[k + 1] == u;
          }
        }
      }
      if users[0].queueId == qid then
        SubsequenceSkip(users[0], rest, users[1..]);
        rest
      else
        SubsequenceKeep(users[0], rest, users[1..]);
        assert UniqueIds(users) ==> UniqueIds([users[0]] + rest) by {
          if UniqueIds(users) { UniqueCons(users[0], rest); }
        }
        [users[0]] + rest
  }

  lemma UniqueTail(users: seq<User>)
    requires users != []
    ensures UniqueIds(users) ==> UniqueIds(users[1..])
  {
    if UniqueIds(users) {
      forall i, j | 0 <= i < j < |users[1..]| ensures users[1..][i].id != users[1..][j].id {
        assert users[1..][i] == users[i + 1] && users[1..][j] == users[j + 1];
      }
    }
  }

  /** Prepending a record whose id is not yet taken keeps ids unique. */
  lemma UniqueCons(x: User, rest: seq<User>)
    requires UniqueIds(rest)
    requires forall u :: u in rest ==> u.id != x.id
    ensures UniqueIds([x] + rest)
  {
    var r := [x] + rest;
    forall i, j | 0 <= i < j < |r| ensures r[i].id != r[j].id {
      assert r[j] == rest[j - 1];
      if i > 0 { assert r[i] == rest[i - 1]; }
    }
  }

  lemma SplitFirst(users: seq<User>)
    requires users != []
    ensures users == [users[0]] + users[1..]
    ensures multiset(users) == multiset{users[0]} + multiset(users[1..])
  {
    assert users == [users[0]] + users[1..];
  }

  lemma SubsequenceKeep(x: User, a: seq<User>, b: seq<User>)
    requires Subsequence(a, b)
    ensures Subsequence([x] + a, [x] + b)
  {
    assert ([x] + a)[1..] == a && ([x] + b)[1..] == b;
  }

  lemma SubsequenceSkip(x: User, a: seq<User>, b: seq<User>)
    requires Subsequence(a, b)
    ensures Subsequence(a, [x] + b)
  {
    assert ([x] + b)[1..] == b;
  }

  function IdsOf(users: seq<User>): set<UserId> {
    set u | u in users :: u.id
  }

  /** `dependent: :destroy`: deleting a queue deletes every participant of it, and
      with them every pairing that names one of them. */
  function DestroyQueue(st: Store, qid: QueueId): (r: Store)
    ensures forall u :: u in r.users <==> u in st.users && u.queueId != qid
    ensures forall u :: multiset(r.users)[u] == if u.queueId != qid then multiset(st.users)[u] else 0
    ensures Subsequence(r.users, st.users)
    ensures forall t :: t in r.pairing ==> t in st.pairing && r.pairing[t] == st.pairing[t]
    ensures forall t :: t in r.pairing ==> t in IdsOf(r.users) && r.pairing[t] in IdsOf(r.users)
    ensures forall t :: t in st.pairing && t in IdsOf(r.users) && st.pairing[t] in IdsOf(r.users) ==>
      t in r.pairing
  {
    var users' := KeepOthers(st.users, qid);
    var ids := IdsOf(users');
    Store(users', map t | t in st.pairing && t in ids && st.pairing[t] in ids :: st.pairing[t])
  }

  lemma DestroyQueuePreservesConsistent(st: Store, qid: QueueId)
    requires Consistent(st)
    ensures Consistent(DestroyQueue(st, qid))
  {
    var st' := DestroyQueue(st, qid);
    forall t | t in st'.pairing
      ensures Pairable(st'.users, t, st'.pairing[t])
    {
      PairableInSubset(st.users, st'.users, t, st.pairing[t]);
    }
  }

  /** A pairing stays well formed in any selection of records that keeps both ends. */
  lemma PairableInSubset(users: seq<User>, users': seq<User>, t: UserId, s: UserId)
    requires UniqueIds(users) && Pairable(users, t, s)
    requires forall u :: u in users' ==> u in users
    requires t in IdsOf(users') && s in IdsOf(users')
    ensures Pairable(users', t, s)
  {
    var u, v :| u in users && v in users && Pairs(u, v, t, s);
    var u' :| u' in users' && u'.id == t;
    var v' :| v' in users' && v'.id == s;
    var i :| 0 <= i < |users| && users[i] == u;
    var i' :| 0 <= i' < |users| && users[i'] == u';
    var j :| 0 <= j < |users| && users[j] == v;
    var j' :| 0 <= j' < |users| && users[j'] == v';
    assert i == i' && j == j';
  }
}

=== FILE: text.dfy ===
/** The few pieces of Ruby string behaviour the queue records depend on:
    the `\w` character class, ActiveSupport's `blank?`, ASCII `upcase!`, and
    the search semantics of the line-anchored pattern `/^\w*$/`. */
module Text {
  import opened Wrappers

  /** Ruby's `\w` on a string: an ASCII letter, an ASCII digit or `_`. */
  predicate IsWordChar(c: char) {
    ('a' <= c <= 'z') || ('A' <= c <= 'Z') || ('0' <= c <= '9') || c == '_'
  }

  predicate AllWordChars(s: string) {
    forall k :: 0 <= k < |s| ==> IsWordChar(s[k])
  }

  /** ASCII white space: space, tab, line feed, vertical tab, form feed, carriage return. */
  predicate IsSpace(c: char) {
    c == ' ' || c == '\t' || c == '\n' || c == '\U{000B}' || c == '\U{000C}' || c == '\r'
  }

  /** Rails' `presence` test: not nil and holding at least one non-space character. */
  predicate Present(s: Option<string>) {
    s.Some? && exists k :: 0 <= k < |s.value| && !IsSpace(s.value[k])
  }

  predicate IsLower(c: char) {
    'a' <= c <= 'z'
  }

  function UpcaseChar(c: char): char {
    if IsLower(c) then (c as int - 32) as char else c
  }

  /** `String#upcase!` on the ASCII range; every other character is left alone. */
  function Upcase(s: string): (r: string)
    ensures |r| == |s|
    ensures forall k :: 0 <= k < |s| ==> r[k] == UpcaseChar(s[k])
  {
    if s == [] then [] else [UpcaseChar(s[0])] + Upcase(s[1..])
  }

  lemma UpcaseIdempotent(s: string)
    ensures Upcase(Upcase(s)) == Upcase(s)
  {
  }

  /** Upcasing keeps a string inside `\w*` and never lets a non-word string in. */
  lemma UpcasePreservesWordChars(s: string)
    ensures AllWordChars(Upcase(s)) <==> AllWordChars(s)
  {
    forall k | 0 <= k < |s|
      ensures IsWordChar(Upcase(s)[k]) <==> IsWordChar(s[k])
    {
      var c := s[k];
      if IsLower(c) {
        assert 'A' <= UpcaseChar(c) <= 'Z';
      }
    }
  }

  lemma UpcaseLeavesNoLowercase(s: string)
    ensures forall k :: 0 <= k < |s| ==> !IsLower(Upcase(s)[k])
  {
  }

  // ---------------------------------------------------------------------
  // The class-number format pattern `/^\w*$/` exactly as Ruby searches it.
  // `^` matches at the start of the string or just after a line feed that is
  // not the last character; `$` matches at the end of the string or just
  // before a line feed. A match anywhere in the string is enough.
  // ---------------------------------------------------------------------

  predicate LineStart(s: string, i: int) {
    0 <= i <= |s| && (i == 0 || (s[i - 1] == '\n' && i < |s|))
  }

  predicate LineEnd(s: string, j: int) {
    0 <= j <= |s| && (j == |s| || s[j] == '\n')
  }

  predicate WordLineAt(s: string, i: int, j: int) {
    0 <= i <= j <= |s| && LineStart(s, i) && LineEnd(s, j) && AllWordChars(s[i..j])
  }

  /** Whether `/^\w*$/ =~ s` succeeds: some whole line of `s` is made of word characters. */
  predicate MatchesWordLines(s: string) {
    exists i, j :: 0 <= i <= j <= |s| && WordLineAt(s, i, j)
  }

  /** On a string without line feeds the line-anchored pattern means "only word characters". */
  lemma SingleLineMatchesIffWordChars(s: string)
    requires forall k :: 0 <= k < |s| ==> s[k] != '\n'
    ensures MatchesWordLines(s) <==> AllWordChars(s)
  {
    if MatchesWordLines(s) {
      var i, j :| 0 <= i <= j <= |s| && WordLineAt(s, i, j);
      assert i == 0;
      assert j == |s|;
      assert s[i..j] == s;
    }
    if AllWordChars(s) {
      assert s[0..|s|] == s;
      assert WordLineAt(s, 0, |s|);
    }
  }

  /** The pattern lets a class number with a second, arbitrary line through. */
  lemma MultilineAnchorsAdmitNonWordChars()
    ensures MatchesWordLines("CS1\n<x>")
    ensures !AllWordChars("CS1\n<x>")
  {
    var s := "CS1\n<x>";
    assert s[0..3] == "CS1";
    assert WordLineAt(s, 0, 3);
    assert !IsWordChar(s[3]);
  }
}

=== FILE: waiting_line.dfy ===
/** The waiting line of a queue: the students of that queue whose `in_queue` time is
    set, earliest first. Students with equal times keep their order in the store
    (`Sort` is stable). */
module WaitingLine {
  import opened Participants
  import opened Database

  predicate IsWaitingIn(u: User, qid: QueueId) {
    u.queueId == qid && u.role.Student? && u.role.inQueue.Some?
  }

  /** The sort key: the `in_queue` time of a waiting student. */
  function JoinTime(u: User): Time {
    if u.role.Student? && u.role.inQueue.Some? then u.role.inQueue.value else 0
  }

  /** The waiting students of a queue, in store order. */
  function Waiting(users: seq<User>, qid: QueueId): (r: seq<User>)
    ensures forall u :: multiset(r)[u] == if IsWaitingIn(u, qid) then multiset(users)[u] else 0
  {
    if users == [] then []
    else
      assert users == [users[0]] + users[1..];
      if IsWaitingIn(users[0], qid) then [users[0]] + Waiting(users[1..], qid)
      else Waiting(users[1..], qid)
  }

  /** The elements of `s` that joined at time `t`, in the order of `s`. */
  function JoinedAt(s: seq<User>, t: Time): seq<User> {
    if s == [] then []
    else if JoinTime(s[0]) == t then [s[0]] + JoinedAt(s[1..], t)
    else JoinedAt(s[1..], t)
  }

  predicate SortedByJoin(s: seq<User>) {
    forall i, j :: 0 <= i < j < |s| ==> JoinTime(s[i]) <= JoinTime(s[j])
  }

  /** Puts `u` in front of the first element that joined no earlier than it. */
  function Insert(u: User, s: seq<User>): (r: seq<User>)
    ensures |r| == |s| + 1 && (r[0] == u || (s != [] && r[0] == s[0]))
    ensures multiset(r) == multiset(s) + multiset{u}
  {
    if s == [] then [u]
    else if JoinTime(u) <= JoinTime(s[0]) then [u] + s
    else
      TailMultiset(s);
      [s[0]] + Insert(u, s[1..])
  }

  /** Inserting into a sorted line keeps it sorted. */
  lemma {:induction false} InsertSorted(u: User, s: seq<User>)
    requires SortedByJoin(s)
    ensures SortedByJoin(Insert(u, s))
    decreases |s|
  {
    if s != [] && JoinTime(u) > JoinTime(s[0]) {
      TailProperties(s);
      InsertSorted(u, s[1..]);
      var rest := Insert(u, s[1..]);
      InsertPastFirst(u, s);
      if rest[0] != u { assert rest[0] == s[1]; }
      PrependSorted(s[0], rest);
    } else {
      assert Insert(u, s) == [u] + s;
      PrependSorted(u, s);
    }
  }

  /** `JoinedAt` of a sequence with a given head. */
  lemma JoinedAtCons(x: User, s: seq<User>, t: Time)
    ensures JoinedAt([x] + s, t) == if JoinTime(x) == t then [x] + JoinedAt(s, t) else JoinedAt(s, t)
  {
    assert ([x] + s)[0] == x && ([x] + s)[1..] == s;
  }

  /** Inserting goes in front of every element with the same join time, so among equal
      times the inserted element comes first and the others keep their order. */
  lemma {:induction false} InsertKeepsTies(u: User, s: seq<User>, t: Time)
    ensures JoinedAt(Insert(u, s), t) == if JoinTime(u) == t then [u] + JoinedAt(s, t) else JoinedAt(s, t)
    decreases |s|
  {
    if s != [] && JoinTime(u) > JoinTime(s[0]) {
      InsertKeepsTies(u, s[1..], t);
      InsertPastFirst(u, s);
      JoinedAtFirst(s, t);
      JoinedAtFirst(Insert(u, s), t);
    } else {
      assert Insert(u, s) == [u] + s;
      JoinedAtCons(u, s, t);
    }
  }

  lemma InsertPastFirst(u: User, s: seq<User>)
    requires s != [] && JoinTime(u) > JoinTime(s[0])
    ensures Insert(u, s) == [s[0]] + Insert(u, s[1..])
  {
  }

  /** `JoinedAt` splits off the first element. */
  lemma JoinedAtFirst(s: seq<User>, t: Time)
    requires s != []
    ensures JoinedAt(s, t) == if JoinTime(s[0]) == t then [s[0]] + JoinedAt(s[1..], t) else JoinedAt(s[1..], t)
  {
  }

  /** Prepending an element that joined no later than the head keeps a line sorted. */
  lemma PrependSorted(x: User, s: seq<User>)
    requires SortedByJoin(s)
    requires s != [] ==> JoinTime(x) <= JoinTime(s[0])
    ensures SortedByJoin([x] + s)
  {
    var r := [x] + s;
    forall i, j | 0 <= i < j < |r| ensures JoinTime(r[i]) <= JoinTime(r[j]) {
      assert r[j] == s[j - 1];
      if i > 0 { assert r[i] == s[i - 1]; } else if j > 1 { assert JoinTime(s[0]) <= JoinTime(s[j - 1]); }
    }
  }


  lemma TailMultiset(x: seq<User>)
    requires |x| > 0
    ensures multiset(x) == multiset{x[0]} + multiset(x[1..])
    ensures multiset(x[1..]) == multiset(x) - multiset{x[0]}
  {
    assert x == [x[0]] + x[1..];
  }

  function Sort(s: seq<User>): (r: seq<User>)
    ensures SortedByJoin(r)
    ensures multiset(r) == multiset(s)
    ensures forall t :: JoinedAt(r, t) == JoinedAt(s, t)
  {
    if s == [] then []
    else
      assert s == [s[0]] + s[1..];
      var rest := Sort(s[1..]);
      InsertSorted(s[0], rest);
      forall t ensures JoinedAt(Insert(s[0], rest), t) == JoinedAt(s, t) {
        InsertKeepsTies(s[0], rest, t);
      }
      Insert(s[0], rest)
  }

  /** The waiting list of a queue: exactly its waiting students, each as often as it is
      stored, in ascending `in_queue` order. */
  function Line(users: seq<User>, qid: QueueId): (r: seq<User>)
    ensures SortedByJoin(r)
    ensures forall u :: multiset(r)[u] == if IsWaitingIn(u, qid) then multiset(users)[u] else 0
    ensures forall u :: u in r <==> u in users && IsWaitingIn(u, qid)
    ensures forall t :: JoinedAt(r, t) == JoinedAt(Waiting(users, qid), t)
  {
    var r := Sort(Waiting(users, qid));
    assert forall u :: u in r <==> u in users && IsWaitingIn(u, qid) by {
      forall u ensures u in r <==> u in users && IsWaitingIn(u, qid) {
        assert u in r <==> u in multiset(r);
        assert u in users <==> u in multiset(users);
      }
    }
    r
  }

  /** A line with a single waiting student, stored once, is that student alone. */
  lemma LineOfOne(users: seq<User>, qid: QueueId, s: User)
    requires multiset(users)[s] == 1 && IsWaitingIn(s, qid)
    requires forall u :: u in users && u != s ==> !IsWaitingIn(u, qid)
    ensures Line(users, qid) == [s]
  {
    var line := Line(users, qid);
    assert multiset(line) == multiset{s} by {
      forall u ensures multiset(line)[u] == multiset{s}[u] {
        if u != s && u in users { assert !IsWaitingIn(u, qid); }
      }
    }
    assert |line| == 1;
    assert line[0] in multiset(line);
  }

  function WaitingList(st: Store, qid: QueueId): seq<User> {
    Line(st.users, qid)
  }

  /** Distinct waiting students of the queue joined at distinct times. */
  predicate DistinctJoinTimes(users: seq<User>, qid: QueueId) {
    forall u, v :: u in users && v in users && IsWaitingIn(u, qid) && IsWaitingIn(v, qid) && u != v
      ==> JoinTime(u) != JoinTime(v)
  }

  /** Distinct elements never tie on the key. */
  predicate KeysDistinct(x: seq<User>) {
    forall u, v :: u in x && v in x && u != v ==> JoinTime(u) != JoinTime(v)
  }

  /** Two sorted sequences holding the same elements are equal, as long as distinct
      elements never tie on the key. */
  lemma {:induction false} SortedUnique(x: seq<User>, y: seq<User>)
    requires SortedByJoin(x) && SortedByJoin(y)
    requires multiset(x) == multiset(y)
    requires KeysDistinct(x)
    ensures x == y
    decreases |x|
  {
    if |x| == 0 {
      assert |y| == |multiset(y)| == 0;
    } else {
      HeadAndTails(x, y);
      SortedUnique(x[1..], y[1..]);
      assert x == [x[0]] + x[1..] && y == [y[0]] + y[1..];
    }
  }

  /** Equal heads, and tails that again meet the requirements of `SortedUnique`. */
  lemma HeadAndTails(x: seq<User>, y: seq<User>)
    requires |x| > 0
    requires SortedByJoin(x) && SortedByJoin(y)
    requires multiset(x) == multiset(y)
    requires KeysDistinct(x)
    ensures |y| > 0 && x[0] == y[0]
    ensures SortedByJoin(x[1..]) && SortedByJoin(y[1..])
    ensures multiset(x[1..]) == multiset(y[1..])
    ensures KeysDistinct(x[1..])
  {
    assert |y| == |multiset(y)| == |multiset(x)| == |x|;
    SameHead(x, y);
    TailMultiset(x);
    TailMultiset(y);
    TailProperties(x);
    TailProperties(y);
  }

  lemma TailProperties(x: seq<User>)
    requires |x| > 0 && SortedByJoin(x)
    ensures SortedByJoin(x[1..])
    ensures KeysDistinct(x) ==> KeysDistinct(x[1..])
  {
    var t := x[1..];
    forall i, j | 0 <= i < j < |t| ensures JoinTime(t[i]) <= JoinTime(t[j]) {
      assert t[i] == x[i + 1] && t[j] == x[j + 1];
    }
    if KeysDistinct(x) {
      forall u, v | u in t && v in t && u != v ensures JoinTime(u) != JoinTime(v) {
        assert u in x && v in x;
      }
    }
  }

  lemma SameHead(x: seq<User>, y: seq<User>)
    requires |x| > 0 && |y| > 0
    requires SortedByJoin(x) && SortedByJoin(y)
    requires multiset(x) == multiset(y)
    requires KeysDistinct(x)
    ensures x[0] == y[0]
  {
    assert x[0] in multiset(y) && y[0] in multiset(x);
    var j :| 0 <= j < |y| && y[j] == x[0];
    var i :| 0 <= i < |x| && x[i] == y[0];
    assert JoinTime(y[0]) <= JoinTime(x[0]) by {
      if j > 0 { assert JoinTime(y[0]) <= JoinTime(y[j]); }
    }
    assert JoinTime(x[0]) <= JoinTime(y[0]) by {
      if i > 0 { assert JoinTime(x[0]) <= JoinTime(x[i]); }
    }
  }

  /** The waiting list depends only on who is stored, not on the order records were
      created in, when waiting students joined at distinct times. */
  lemma LineIgnoresCreationOrder(a: seq<User>, b: seq<User>, qid: QueueId)
    requires multiset(a) == multiset(b)
    requires DistinctJoinTimes(a, qid)
    ensures Line(a, qid) == Line(b, qid)
  {
    var x, y := Line(a, qid), Line(b, qid);
    assert multiset(x) == multiset(y) by {
      forall u ensures multiset(x)[u] == multiset(y)[u] { }
    }
    assert KeysDistinct(x) by {
      forall u, v | u in x && v in x && u != v ensures JoinTime(u) != JoinTime(v) {
        assert u in a && v in a;
      }
    }
    SortedUnique(x, y);
  }
}

=== FILE: wrappers.dfy ===
/** Wrappers shared by the whole model: `Option` stands for a
    Ruby value that may be `nil`, `Result` for an operation that can be refused. */
module Wrappers {

  datatype Option<+T> = None | Some(value: T)

  datatype Result<+R, +E> = Success(value: R) | Failure(error: E)
}
